=== FILE: README.md ===
# Meme editor overlay state machine, in Dafny

This project models the interactive core of a client-side meme editor. The
user places text overlays on an uploaded image by clicking it. Each overlay
can be dragged with its handle, resized, rotated and re-texted, and it can be
deleted. All of this logic lives in the event handlers of one page component
(`src/app/page.tsx`). Each handler is modelled here as a pure transition on an
immutable editor state.

Modules:

- `Options`: `Option<T>`, standing in for `number | null` and for a failed `find`.
- `Geometry`: points, and the canvas as a pointer handler sees it (bounding box
  plus intrinsic pixel size). Holds the screen-to-image transform `ToImage`, its
  inverse `ToClient`, and their algebra.
- `Overlays`: the `TextPosition` record (`Overlay`) and the list operations the
  handlers perform by id: find, per-id field edit (`EditById`, the source's
  `map` with a spread), position update and filter.
- `Layout`: the line layout used when an overlay is drawn. The text is split
  on newlines, exactly like JavaScript's `split`, and line `i` is placed
  `i * 1.2 * size` below the anchor. `Join` is the inverse of the split.
- `MemeEditor`: the editor state and one function per handler: canvas
  click, delete, drag start/move/end (mouse and touch share one function
  each), size and rotation sliders, text-field edit and handle click.
- `Behaviour`: properties of short gestures. Covers drag displacement and the
  grab offset, and the interaction between the text field and a freshly added
  overlay.
- `Session`: the events the rendered page can deliver and when it can deliver
  them. Handles exist only for present overlays and only outside preview. The
  delete button exists only on the selected overlay. The module also holds
  runs of events and the invariants of every reachable state.

Coordinates, sizes and angles are `real`, so the offset algebra is exact. A
canvas element that is missing (`canvasRef.current` is null) is `None`, and
each handler takes the same branch as the source in that case.

## Model

| member | source | states |
|---|---|---|
| Geometry.ToImage | src/app/page.tsx:61-62 | the image coordinate times the rendered size equals the offset from the canvas corner times the pixel size, on each axis |
| Geometry.ToClient | src/app/page.tsx:61-62 | the algebraic inverse of the transform at these lines, fixed by the same proportion read from image space back to the screen; the page has no such function (its handles are placed by CSS percentages), so it serves only as the reference for the round trip |
| Geometry.ToImageRoundTrip | src/app/page.tsx:61-62 | for a non-empty canvas, the transform and its inverse undo each other in both directions |
| Geometry.ToImageAtUnitScale | src/app/page.tsx:61-62 | at intrinsic display size the transform is the identity on offsets from the canvas corner |
| Geometry.ToImageDisplacement | src/app/page.tsx:94-95 | the transform is affine: a pointer displacement is scaled linearly by the canvas ratio, independent of its start |
| Overlays.ApplyEdit | src/app/page.tsx:85 | an edit keeps the id and rewrites exactly the one field it names, every other field unchanged |
| Overlays.FindIndex | src/app/page.tsx:96 | returns the first position holding the id, or None exactly when no overlay carries it |
| Overlays.EditById | src/app/page.tsx:174 | keeps the length; overlays with the id get the edit, all others are unchanged |
| Overlays.EditByIdKeepsIds | src/app/page.tsx:85 | a per-id edit keeps the id set and keeps ids ascending |
| Overlays.UpdateTextPosition | src/app/page.tsx:84-86 | keeps length and ids; the overlay with the id gets the new x/y and nothing else; others unchanged; an absent id is a no-op |
| Overlays.RemoveById | src/app/page.tsx:80 | the result holds exactly the overlays whose id differs; its id set is the old one minus the id |
| Overlays.RemoveDistributes | src/app/page.tsx:80 | filtering distributes over concatenation, so survivors keep their relative order |
| Overlays.RemoveAbsentIsNoop | src/app/page.tsx:80 | filtering an absent id returns the list unchanged |
| Overlays.RemoveUniqueIsSplice | src/app/page.tsx:78-82 | with pairwise distinct ids, deleting the id at position k cuts out exactly that one overlay |
| Overlays.RemoveKeepsAscending | src/app/page.tsx:80 | filtering keeps ids strictly ascending |
| Overlays.AppendKeepsAscending | src/app/page.tsx:66 | appending an overlay whose id exceeds all present ids keeps ids ascending |
| Overlays.AscendingIdsAreDistinct | src/app/page.tsx:65-68 | ascending ids are pairwise distinct |
| Layout.Split | src/app/page.tsx:204 | at least one piece, no piece contains the separator, and joining the pieces gives back the string |
| Layout.SplitCount | src/app/page.tsx:204 | there is one more piece than there are separators |
| Layout.SplitJoin | src/app/page.tsx:204 | splitting the join of separator-free pieces gives back the pieces |
| Layout.LineLayout | src/app/page.tsx:204-207 | one line per newline-separated segment, none containing a newline; the first line is at offset 0 and each next one is size * 1.2 lower; the texts rejoin to the overlay's text |
| Layout.LineOffset | src/app/page.tsx:205-207 | line i sits at vertical offset i * size * 1.2 |
| MemeEditor.Init | src/app/page.tsx:24-30 | the opening state: no overlays, nothing selected, nextId 0, empty text, not dragging, offset (0, 0); add mode on and preview off as at lines 53-54 |
| MemeEditor.CanvasClick | src/app/page.tsx:56-76 | with pending text in add mode: appends {id: nextId, click position, text, size 80, rotation 0} at the end, selects it, increments nextId, clears the text, nothing else changes; otherwise only the selection becomes null; no canvas is a no-op |
| MemeEditor.RemoveText | src/app/page.tsx:78-82 | the overlays left are exactly those with another id, the id disappears from the id set, the selection is null, nothing else changes |
| MemeEditor.DragStart | src/app/page.tsx:88-149 | dragging is on and the id is selected; with a canvas and a matching overlay, offset plus pointer equals the overlay's position; otherwise the offset is kept |
| MemeEditor.DragMove | src/app/page.tsx:110-165 | unless dragging with a selection and a canvas, a no-op; otherwise each overlay with the selected id is placed at pointer plus offset and all else is unchanged |
| MemeEditor.DragEnd | src/app/page.tsx:125-169 | dragging is off and nothing else changes |
| MemeEditor.TextSizeChange | src/app/page.tsx:171-178 | no-op without a selection; otherwise only the selected overlay's size changes |
| MemeEditor.TextRotationChange | src/app/page.tsx:180-187 | no-op without a selection; otherwise only the selected overlay's rotation changes |
| MemeEditor.TextEdit | src/app/page.tsx:276-285 | the pending text becomes the value; with a selection, only the selected overlay's text changes to it |
| MemeEditor.HandleClick | src/app/page.tsx:349-353 | the selection becomes exactly the id of the clicked overlay (position k), which is present, and that overlay's text is loaded into the text field; nothing else changes |
| Behaviour.FindIndexUnique | src/app/page.tsx:96 | with ascending ids, the lookup by the id at position k finds position k |
| Behaviour.DragKeepsGrabOffset | src/app/page.tsx:96-118 | grab at p then move to q shifts the grabbed overlay by the image-space displacement from p to q, only its position changes, other overlays untouched |
| Behaviour.DragInPlaceIsNoop | src/app/page.tsx:96-118 | moving the pointer back to the grab point leaves the overlay list exactly as it was |
| Behaviour.DragFollowsPointerAtUnitScale | src/app/page.tsx:112-118 | at intrinsic display size the overlay moves by exactly the pointer's screen displacement |
| Behaviour.DragMoveLastWins | src/app/page.tsx:110-123 | two successive moves equal the last move alone: moves keep the offset and do not accumulate |
| Behaviour.TypingAfterAddRetextsNewOverlay | src/app/page.tsx:276-284 | after an add the text field is empty and typing rewrites the just-added overlay's text, not a new one |
| Behaviour.SelectThenClickAddsCopy | src/app/page.tsx:349-353 | a handle click loads the overlay's text, so a following add-mode canvas click appends a copy with the same text and the next id |
| Session.Enabled | src/app/page.tsx:334-368 | which events the rendered page can deliver, both ways: a handle grab or click is deliverable exactly outside preview (line 334) for a present overlay, one handle per list position (lines 335-357); a delete exactly outside preview for the selected overlay (lines 363-368); every other control always |
| Session.HandlesDeliverable | src/app/page.tsx:334-368 | in a valid state outside preview, every overlay's handle can be grabbed and clicked, and the selected overlay can be deleted |
| Session.Apply | src/app/page.tsx:259-397 | the wiring of controls to handlers (lines 263, 276, 300, 311, 322-326, 347-357, 368, 397): only a canvas click can advance the id counter, only the mode toggle changes add mode, only the preview toggle changes preview, only a grab or a release changes the dragging flag, a slider without a selection does nothing, typing sets the pending text and keeps the selection, and a handle click selects that handle's overlay and loads its text |
| Session.CanvasAndDeleteEvents | src/app/page.tsx:56-82 | through `Apply`, a canvas click appends one overlay, advances the counter and selects the new id exactly when a canvas exists, add mode is on and text is pending, and leaves the list alone otherwise; a delete removes the id from the id set and clears the selection |
| Session.PointerEvents | src/app/page.tsx:88-169 | through `Apply`, a grab starts a drag and selects the id without moving anything, and with a canvas and a present overlay records the offset from the pointer's image position to the overlay's anchor; a move while dragging a selection places every overlay with the selected id at the pointer's image position plus that offset and leaves the others untouched; a move keeps the list length and the selection and is a no-op when not dragging; a release stops the drag and moves nothing |
| Session.GrabThenMove | src/app/page.tsx:88-123 | from a valid state outside preview, the events grab-handle-k then move-pointer are both deliverable, and they shift exactly overlay k by the pointer's displacement in image space, leaving every other overlay as it was |
| Session.SliderEvents | src/app/page.tsx:171-187 | through `Apply`, with a selection the size slider changes only the selected overlay's size and the rotation slider only its rotation; every other overlay is untouched |
| Session.InitSatisfiesInv | src/app/page.tsx:23-30 | the opening state (no overlays, nextId 0, nothing selected) satisfies the invariant |
| Session.SameIdsKeepInv | src/app/page.tsx:85 | a step that keeps the counter, the selection and every position's id keeps the invariant |
| Session.AddKeepsInv | src/app/page.tsx:64-69 | an add keeps ids ascending, below the counter, and the selection valid |
| Session.RemoveKeepsInv | src/app/page.tsx:78-82 | a delete keeps the invariant |
| Session.ApplyPreservesInv | src/app/page.tsx:318-375 | every event the page can deliver preserves the invariant |
| Session.ApplyKeepsIdsFresh | src/app/page.tsx:65-68 | one step never lowers nextId and introduces no id other than the old nextId |
| Session.RunPreservesInv | src/app/page.tsx:318-375 | every run of deliverable events preserves the invariant |
| Session.RunNeverReusesIds | src/app/page.tsx:65-68 | an id below nextId that is absent stays absent for the rest of any run, and nextId never decreases |
| Session.ReachableIdsDistinct | src/app/page.tsx:27 | in every reachable state ids are pairwise distinct, strictly increasing along the list, in [0, nextId), and a selection names a present overlay |
| Session.RunConcat | src/app/page.tsx:318-375 | running two event sequences in turn equals running their concatenation |
| Session.RunPair | src/app/page.tsx:318-375 | a run of two deliverable events applies both in turn |
| Session.TextEditKeepsIds | src/app/page.tsx:276-285 | typing keeps the counter, the mode, the selection and the id at every position |
| Session.AddIds | src/app/page.tsx:64-69 | an add keeps every earlier position's id, puts the old counter at the new last position, selects it and clears the text |
| Session.TypeThenClick | src/app/page.tsx:64-69 | typing a non-empty text then clicking in add mode appends one overlay with the next id, selects it and clears the text |
| Session.ExtendsTrans | src/app/page.tsx:65-68 | one appended overlay followed by n more is n + 1 appended overlays, numbered consecutively from the counter |
| Session.RunTypeAndClick | src/app/page.tsx:318-375 | typing and canvas clicks are always deliverable, so the event run reaches the state the rounds compute |
| Session.RoundsAppend | src/app/page.tsx:64-69 | each type-then-click round appends one overlay, numbered from the counter on |
| Session.TypeAndClickAppends | src/app/page.tsx:64-69 | N type-then-click rounds append exactly N overlays with ids nextId, nextId+1, ... in order, keep earlier ids in place, and advance nextId by N |

## Left out

- Image upload (`FileReader`, image decoding, and the last-write-wins race between two decodes). This is asynchronous browser I/O. The loaded image is not part of the state, and the canvas's pixel size is a parameter of each pointer event.
- Canvas drawing (`save`/`translate`/`rotate`/`fillText`/`strokeText`/`restore`, fonts, colours, stroke width). These are foreign drawing calls. Only the line-split and line-offset arithmetic is modelled (`Layout`).
- Degrees-to-radians conversion through `Math.PI`. This is floating-point trigonometry.
- Export (`toDataURL`, the anchor-click download of `meme.png`) and the second export button wired to the same handler.
- JSX rendering, CSS percentage placement of the handles, `useEffect`/`useCallback` wiring and React's batching of state updates. Each handler is one atomic transition. Stale closures between renders are not modelled.
- Event propagation (`stopPropagation`, and a mouse-down on the delete button reaching its handle). Each user gesture is its own event in `Session`.
- Rendering gates that depend on the image being loaded (canvas, text field, sliders and toggles shown only with an image). A click can still find the canvas missing, and that case is modelled as `None`.
- Slider bounds 10..500 and -180..180. The handlers do not enforce them, so the model accepts any value.
- `src/app/layout.tsx`: page chrome, font loading and metadata only.
- Geometry.ToImage: requires a canvas with a positive rendered width and height (`ShownCanvas`). With a zero-size bounding box the source divides by zero and gets NaN or Infinity, which real arithmetic cannot represent.
- Geometry.ToClient: requires a non-empty image (positive pixel size). The inverse is undefined for a canvas of size 0.
- JavaScript numbers are IEEE doubles. The model uses exact reals, so rounding in the transform, the offsets and `size * 1.2` is not modelled.
- Session.Inv: the id counter (`nextId`, page.tsx:27) is an unbounded integer. In the page it is a double, so `prevId + 1` (line 68) stops increasing at 2^53 and later adds would reuse an id. `ReachableIdsDistinct` and `RunNeverReusesIds` hold only for runs with fewer than 2^53 adds.

=== FILE: behaviour.dfy ===
/** Properties of short event sequences: what a drag does to the dragged
    overlay, and how the text field interacts with a freshly added one. */
module Behaviour {
  import opened Options
  import opened Geometry
  import opened Overlays
  import opened MemeEditor

  /** With ascending ids, the first overlay carrying the id of position k is
      the one at position k. */
  lemma FindIndexUnique(ovs: seq<Overlay>, k: nat)
    requires IdsAscending(ovs)
    requires k < |ovs|
    ensures FindIndex(ovs, ovs[k].id) == Some(k)
  {
  }

  /** A grab on overlay k at pointer p followed by a move to pointer q
      shifts that overlay by the image-space displacement from p to q,
      wherever on the handle it was grabbed, and leaves every other overlay
      alone. */
  lemma DragKeepsGrabOffset(s: State, c: ShownCanvas, p: Point, q: Point, k: nat)
    requires IdsAscending(s.overlays)
    requires k < |s.overlays|
    ensures var o := s.overlays[k];
            var r := DragMove(DragStart(s, Some(c), p, o.id), Some(c), q);
            && |r.overlays| == |s.overlays|
            && r.overlays[k].Pos() == o.Pos().Plus(ToImage(c, q).Minus(ToImage(c, p)))
            && r.overlays[k].(x := o.x, y := o.y) == o
            && (forall j :: 0 <= j < |s.overlays| && j != k ==> r.overlays[j] == s.overlays[j])
            && r.dragging && r.selected == Some(o.id)
  {
    var o := s.overlays[k];
    FindIndexUnique(s.overlays, k);
    var s1 := DragStart(s, Some(c), p, o.id);
    assert s1.dragOffset == o.Pos().Minus(ToImage(c, p));
    forall j | 0 <= j < |s.overlays| && j != k
      ensures s.overlays[j].id != o.id
    {
    }
  }

  /** Releasing the pointer where it was grabbed leaves the overlays
      exactly as they were. */
  lemma DragInPlaceIsNoop(s: State, c: ShownCanvas, p: Point, k: nat)
    requires IdsAscending(s.overlays)
    requires k < |s.overlays|
    ensures DragMove(DragStart(s, Some(c), p, s.overlays[k].id), Some(c), p).overlays == s.overlays
  {
    DragKeepsGrabOffset(s, c, p, p, k);
    var r := DragMove(DragStart(s, Some(c), p, s.overlays[k].id), Some(c), p);
    assert r.overlays[k] == s.overlays[k];
  }

  /** On a canvas shown at its intrinsic size, the dragged overlay moves by
      exactly the pointer's on-screen displacement. */
  lemma DragFollowsPointerAtUnitScale(s: State, c: ShownCanvas, p: Point, q: Point, k: nat)
    requires IdsAscending(s.overlays)
    requires k < |s.overlays|
    requires c.pixelWidth as real == c.renderedWidth
    requires c.pixelHeight as real == c.renderedHeight
    ensures DragMove(DragStart(s, Some(c), p, s.overlays[k].id), Some(c), q).overlays[k].Pos()
         == s.overlays[k].Pos().Plus(q.Minus(p))
  {
    DragKeepsGrabOffset(s, c, p, q, k);
    ToImageAtUnitScale(c, p);
    ToImageAtUnitScale(c, q);
  }

  /** Moves do not accumulate: after two moves the overlay sits where the
      last one alone would put it, because a move keeps the grab offset. */
  lemma DragMoveLastWins(s: State, c: ShownCanvas, q1: Point, q2: Point)
    ensures DragMove(DragMove(s, Some(c), q1), Some(c), q2) == DragMove(s, Some(c), q2)
  {
    var a := DragMove(DragMove(s, Some(c), q1), Some(c), q2);
    var b := DragMove(s, Some(c), q2);
    if s.dragging && s.selected.Some? {
      assert |a.overlays| == |b.overlays|;
      forall i | 0 <= i < |s.overlays| ensures a.overlays[i] == b.overlays[i] {
      }
    }
  }

  /** Right after an add the new overlay is selected and the text field is
      empty, so the next keystrokes rewrite the new overlay's text rather
      than start a new one. */
  lemma TypingAfterAddRetextsNewOverlay(s: State, c: ShownCanvas, client: Point, t: string)
    requires s.text != "" && s.addMode
    requires forall i :: 0 <= i < |s.overlays| ==> s.overlays[i].id < s.nextId
    ensures var added := CanvasClick(s, Some(c), client);
            var r := TextEdit(added, t);
            && added.text == ""
            && |r.overlays| == |s.overlays| + 1
            && r.overlays[..|s.overlays|] == s.overlays
            && r.overlays[|s.overlays|] == added.overlays[|s.overlays|].(text := t)
            && r.text == t
  {
    var added := CanvasClick(s, Some(c), client);
    var r := TextEdit(added, t);
    assert forall i :: 0 <= i < |s.overlays| ==> added.overlays[i] == s.overlays[i];
    assert r.overlays[..|s.overlays|] == s.overlays;
  }

  /** Selecting an overlay through its handle loads its text, so a canvas
      click in add mode then places a second overlay with the same text
      instead of clearing the selection. */
  lemma SelectThenClickAddsCopy(s: State, k: nat, c: ShownCanvas, client: Point)
    requires k < |s.overlays|
    requires s.addMode
    requires s.overlays[k].text != ""
    ensures var r := CanvasClick(HandleClick(s, k), Some(c), client);
            && |r.overlays| == |s.overlays| + 1
            && r.overlays[k] == s.overlays[k]
            && r.overlays[|s.overlays|].text == s.overlays[k].text
            && r.overlays[|s.overlays|].id == s.nextId
  {
    var r := CanvasClick(HandleClick(s, k), Some(c), client);
    assert r.overlays[k] == r.overlays[..|s.overlays|][k];
  }

}

=== FILE: editor.dfy ===
/** The meme editor's state and its event handlers, each written as one
    atomic transition from the state before the event to the state after. */
module MemeEditor {
  import opened Options
  import opened Geometry
  import opened Overlays

  /** The editor's in-memory state.  `text` is the pending text of the text
      field, `addMode` the add/edit toggle and `preview` the toggle that
      hides the overlay handles.  The loaded image is not part of it. */
  datatype State = State(
    overlays: seq<Overlay>,
    selected: Option<int>,
    nextId: int,
    text: string,
    dragging: bool,
    dragOffset: Point,
    addMode: bool,
    preview: bool)

  /** The state when the page opens: no overlays, nothing selected, ids
      starting at 0, add mode on, preview off. */
  function Init(): (r: State)
    ensures r.overlays == [] && r.selected.None? && r.nextId == 0
    ensures r.text == "" && !r.dragging && r.dragOffset == Point(0.0, 0.0)
    ensures r.addMode && !r.preview
  {
    State([], None, 0, "", false, Point(0.0, 0.0), true, false)
  }

  /** A click on the canvas.  With pending text in add mode it places a new
      overlay at the click, selects it, advances the id counter and clears
      the pending text; otherwise it only clears the selection.  Without a
      canvas element nothing happens. */
  function CanvasClick(s: State, canvas: Option<ShownCanvas>, client: Point): (r: State)
    ensures canvas.None? ==> r == s
    ensures canvas.Some? && (s.text == "" || !s.addMode) ==> r == s.(selected := None)
    ensures canvas.Some? && s.text != "" && s.addMode ==>
              var p := ToImage(canvas.value, client);
              && |r.overlays| == |s.overlays| + 1
              && r.overlays[..|s.overlays|] == s.overlays
              && r.overlays[|s.overlays|] == Overlay(s.nextId, p.x, p.y, s.text, DefaultSize, DefaultRotation)
              && r.selected == Some(s.nextId)
              && r.nextId == s.nextId + 1
              && r.text == ""
              && r.(overlays := s.overlays, selected := s.selected, nextId := s.nextId, text := s.text) == s
  {
    match canvas
    case None => s
    case Some(c) =>
      if s.text != "" && s.addMode then
        var p := ToImage(c, client);
        var added := Overlay(s.nextId, p.x, p.y, s.text, DefaultSize, DefaultRotation);
        s.(overlays := s.overlays + [added], selected := Some(s.nextId), nextId := s.nextId + 1, text := "")
      else
        s.(selected := None)
  }

  /** The delete button: drops every overlay with the id and clears the
      selection. */
  function RemoveText(s: State, id: int): (r: State)
    ensures forall o :: o in r.overlays <==> o in s.overlays && o.id != id
    ensures Ids(r.overlays) == Ids(s.overlays) - {id}
    ensures r.selected.None?
    ensures r.(overlays := s.overlays, selected := s.selected) == s
  {
    RemoveByIdIds(s.overlays, id);
    s.(overlays := RemoveById(s.overlays, id), selected := None)
  }

  /** Mouse-down or touch-start on the handle of overlay `id`.  With a
      canvas and an overlay of that id, records the offset from the pointer
      to the overlay's anchor; in every case starts dragging and selects the
      id. */
  function DragStart(s: State, canvas: Option<ShownCanvas>, client: Point, id: int): (r: State)
    ensures r.dragging && r.selected == Some(id)
    ensures r.(dragging := s.dragging, selected := s.selected, dragOffset := s.dragOffset) == s
    ensures canvas.Some? && FindIndex(s.overlays, id).Some? ==>
              r.dragOffset.Plus(ToImage(canvas.value, client)) == s.overlays[FindIndex(s.overlays, id).value].Pos()
    ensures canvas.None? || FindIndex(s.overlays, id).None? ==> r.dragOffset == s.dragOffset
  {
    var offset :=
      match canvas
      case None => s.dragOffset
      case Some(c) =>
        match FindIndex(s.overlays, id)
        case None => s.dragOffset
        case Some(k) => s.overlays[k].Pos().Minus(ToImage(c, client));
    s.(dragOffset := offset, dragging := true, selected := Some(id))
  }

  /** Mouse-move or touch-move.  While dragging with a selection, puts the
      selected overlay at the pointer plus the recorded offset; otherwise
      (or without a canvas) nothing happens. */
  function DragMove(s: State, canvas: Option<ShownCanvas>, client: Point): (r: State)
    ensures !(s.dragging && s.selected.Some? && canvas.Some?) ==> r == s
    ensures r.(overlays := s.overlays) == s
    ensures |r.overlays| == |s.overlays|
    ensures s.dragging && s.selected.Some? && canvas.Some? ==>
              var target := ToImage(canvas.value, client).Plus(s.dragOffset);
              forall i :: 0 <= i < |s.overlays| ==>
                r.overlays[i] == if s.overlays[i].id == s.selected.value
                                 then s.overlays[i].(x := target.x, y := target.y)
                                 else s.overlays[i]
  {
    if s.dragging && s.selected.Some? && canvas.Some? then
      var target := ToImage(canvas.value, client).Plus(s.dragOffset);
      s.(overlays := UpdateTextPosition(s.overlays, s.selected.value, target.x, target.y))
    else
      s
  }

  /** Mouse-up or touch-end: stops dragging and changes nothing else. */
  function DragEnd(s: State): (r: State)
    ensures !r.dragging
    ensures r.(dragging := s.dragging) == s
  {
    s.(dragging := false)
  }

  /** The size slider: with a selection, resizes the selected overlay; with
      none, does nothing. */
  function TextSizeChange(s: State, value: real): (r: State)
    ensures s.selected.None? ==> r == s
    ensures r.(overlays := s.overlays) == s
    ensures |r.overlays| == |s.overlays|
    ensures s.selected.Some? ==>
              forall i :: 0 <= i < |s.overlays| ==>
                r.overlays[i] == if s.overlays[i].id == s.selected.value
                                 then s.overlays[i].(size := value)
                                 else s.overlays[i]
  {
    match s.selected
    case None => s
    case Some(id) => s.(overlays := EditById(s.overlays, id, Resize(value)))
  }

  /** The rotation slider: with a selection, rotates the selected overlay;
      with none, does nothing. */
  function TextRotationChange(s: State, value: real): (r: State)
    ensures s.selected.None? ==> r == s
    ensures r.(overlays := s.overlays) == s
    ensures |r.overlays| == |s.overlays|
    ensures s.selected.Some? ==>
              forall i :: 0 <= i < |s.overlays| ==>
                r.overlays[i] == if s.overlays[i].id == s.selected.value
                                 then s.overlays[i].(rotation := value)
                                 else s.overlays[i]
  {
    match s.selected
    case None => s
    case Some(id) => s.(overlays := EditById(s.overlays, id, Rotate(value)))
  }

  /** Typing in the text field: sets the pending text and, with a
      selection, rewrites the selected overlay's text to the same value. */
  function TextEdit(s: State, value: string): (r: State)
    ensures r.text == value
    ensures s.selected.None? ==> r.overlays == s.overlays
    ensures r.(overlays := s.overlays, text := s.text) == s
    ensures |r.overlays| == |s.overlays|
    ensures s.selected.Some? ==>
              forall i :: 0 <= i < |s.overlays| ==>
                r.overlays[i] == if s.overlays[i].id == s.selected.value
                                 then s.overlays[i].(text := value)
                                 else s.overlays[i]
  {
    var overlays :=
      match s.selected
      case None => s.overlays
      case Some(id) => EditById(s.overlays, id, Retext(value));
    s.(text := value, overlays := overlays)
  }

  /** A click on the handle of the overlay at position k of the list:
      selects it and loads its text into the text field. */
  function HandleClick(s: State, k: nat): (r: State)
    requires k < |s.overlays|
    ensures r.selected == Some(s.overlays[k].id)
    ensures r.selected.value in Ids(s.overlays)
    ensures r.text == s.overlays[k].text
    ensures r.(selected := s.selected, text := s.text) == s
  {
    assert s.overlays[k].id in Ids(s.overlays);
    s.(selected := Some(s.overlays[k].id), text := s.overlays[k].text)
  }

}

=== FILE: geometry.dfy ===
/** Points and the screen-to-image coordinate transform that every pointer
    handler of the editor applies before touching an overlay. */
module Geometry {

  /** A position or an offset; the same record serves screen space and
      image-pixel space. */
  datatype Point = Point(x: real, y: real) {

    function Plus(d: Point): Point {
      Point(x + d.x, y + d.y)
    }

    function Minus(o: Point): Point {
      Point(x - o.x, y - o.y)
    }
  }

  /** The canvas element as a pointer handler sees it: its bounding box on
      the screen (left, top, rendered width and height) and its intrinsic
      pixel size, which always equals the loaded image's natural size. */
  datatype Canvas = Canvas(left: real, top: real,
                           renderedWidth: real, renderedHeight: real,
                           pixelWidth: nat, pixelHeight: nat)
  {
    /** A canvas that occupies some area on the screen. */
    predicate Shown() {
      renderedWidth > 0.0 && renderedHeight > 0.0
    }

    /** Image pixels per screen unit, horizontally and vertically. */
    function ScaleX(): real
      requires Shown()
    {
      pixelWidth as real / renderedWidth
    }

    function ScaleY(): real
      requires Shown()
    {
      pixelHeight as real / renderedHeight
    }

    function Origin(): Point {
      Point(left, top)
    }
  }

  type ShownCanvas = c: Canvas | c.Shown() witness Canvas(0.0, 0.0, 1.0, 1.0, 1, 1)

  /** Converts a pointer position in screen space to image-pixel space:
      the offset from the canvas's top-left corner, scaled by the ratio of
      intrinsic to rendered size. */
  function ToImage(c: ShownCanvas, client: Point): (p: Point)
    ensures p.x * c.renderedWidth == (client.x - c.left) * c.pixelWidth as real
    ensures p.y * c.renderedHeight == (client.y - c.top) * c.pixelHeight as real
  {
    Point((client.x - c.left) * c.ScaleX(), (client.y - c.top) * c.ScaleY())
  }

  /** The inverse transform: where on the screen an image-space point is
      displayed.  Defined only for a canvas holding a non-empty image. */
  function ToClient(c: ShownCanvas, p: Point): (client: Point)
    requires c.pixelWidth > 0 && c.pixelHeight > 0
    ensures (client.x - c.left) * c.pixelWidth as real == p.x * c.renderedWidth
    ensures (client.y - c.top) * c.pixelHeight as real == p.y * c.renderedHeight
  {
    Point(c.left + p.x / c.ScaleX(), c.top + p.y / c.ScaleY())
  }

  /** The transform and its inverse undo each other, both ways round. */
  lemma ToImageRoundTrip(c: ShownCanvas, client: Point, p: Point)
    requires c.pixelWidth > 0 && c.pixelHeight > 0
    ensures ToClient(c, ToImage(c, client)) == client
    ensures ToImage(c, ToClient(c, p)) == p
  {
  }

  /** When the canvas is displayed at its intrinsic size the transform is a
      pure translation: image coordinates are offsets from the canvas corner. */
  lemma ToImageAtUnitScale(c: ShownCanvas, client: Point)
    requires c.pixelWidth as real == c.renderedWidth
    requires c.pixelHeight as real == c.renderedHeight
    ensures ToImage(c, client) == client.Minus(c.Origin())
  {
    assert c.ScaleX() == 1.0 && c.ScaleY() == 1.0;
  }

  /** The transform is affine: a pointer displacement is scaled by the
      canvas ratio and does not depend on where it starts. */
  lemma ToImageDisplacement(c: ShownCanvas, p: Point, q: Point)
    ensures ToImage(c, q).Minus(ToImage(c, p))
         == Point((q.x - p.x) * c.ScaleX(), (q.y - p.y) * c.ScaleY())
  {
  }

}

=== FILE: layout.dfy ===
/** The pure arithmetic of drawing one overlay: its text is cut at every
    newline and the pieces are stacked downwards, one line height apart. */
module Layout {

  const NewLine: char := '\n'

  /** A line is 1.2 times the font size tall. */
  const LineHeightFactor: real := 1.2

  /** The number of occurrences of a character in a string. */
  function Occurrences(s: string, c: char): nat {
    if |s| == 0 then 0 else (if s[0] == c then 1 else 0) + Occurrences(s[1..], c)
  }

  /** Glues pieces back together with the separator between neighbours. */
  function Join(parts: seq<string>, sep: char): string
    requires |parts| >= 1
  {
    if |parts| == 1 then parts[0] else parts[0] + [sep] + Join(parts[1..], sep)
  }

  /** Cuts a string at every occurrence of the separator, as JavaScript's
      `split` does with a one-character separator: the empty string yields
      one empty piece, and a leading or trailing separator yields an empty
      piece at that end. */
  function Split(s: string, sep: char): (parts: seq<string>)
    ensures |parts| >= 1
    ensures forall i :: 0 <= i < |parts| ==> sep !in parts[i]
    ensures Join(parts, sep) == s
  {
    if |s| == 0 then [""]
    else
      var rest := Split(s[1..], sep);
      if s[0] == sep then
        assert s == [sep] + s[1..];
        [""] + rest
      else
        var parts := [[s[0]] + rest[0]] + rest[1..];
        assert parts[1..] == rest[1..];
        assert s == [s[0]] + s[1..];
        parts
  }

  /** Splitting yields one more piece than there are separators. */
  lemma {:induction false} SplitCount(s: string, sep: char)
    ensures |Split(s, sep)| == Occurrences(s, sep) + 1
  {
    if |s| > 0 {
      SplitCount(s[1..], sep);
    }
  }

  /** Splitting a string that starts with a separator-free prefix glues that
      prefix onto the first piece of the remainder. */
  lemma {:induction false} SplitPrefix(a: string, t: string, sep: char)
    requires sep !in a
    ensures Split(a + t, sep) == [a + Split(t, sep)[0]] + Split(t, sep)[1..]
  {
    if |a| > 0 {
      assert (a + t)[1..] == a[1..] + t;
      assert (a + t)[0] == a[0];
      SplitPrefix(a[1..], t, sep);
      assert [a[0]] + (a[1..] + Split(t, sep)[0]) == a + Split(t, sep)[0];
    } else {
      var st := Split(t, sep);
      assert a + t == t;
      assert a + st[0] == st[0];
      assert st == [st[0]] + st[1..];
    }
  }

  /** Split inverts Join on pieces free of the separator. */
  lemma {:induction false} SplitJoin(parts: seq<string>, sep: char)
    requires |parts| >= 1
    requires forall i :: 0 <= i < |parts| ==> sep !in parts[i]
    ensures Split(Join(parts, sep), sep) == parts
  {
    if |parts| == 1 {
      SplitPrefix(parts[0], "", sep);
      assert parts[0] + "" == parts[0];
    } else {
      var rest := Join(parts[1..], sep);
      SplitJoin(parts[1..], sep);
      assert parts[0] + [sep] + rest == parts[0] + ([sep] + rest);
      var t := [sep] + rest;
      assert t[0] == sep && t[1..] == rest;
      assert Split(t, sep) == [""] + parts[1..];
      SplitPrefix(parts[0], t, sep);
      assert parts[0] + "" == parts[0];
      assert parts == [parts[0]] + parts[1..];
    }
  }

  /** One drawn line: its text and its vertical offset from the overlay's
      anchor, in the overlay's rotated frame. */
  datatype Line = Line(text: string, dy: real)

  /** The lines an overlay of the given font size draws for its text. */
  function LineLayout(text: string, size: real): (lines: seq<Line>)
    ensures |lines| == Occurrences(text, NewLine) + 1
    ensures forall i :: 0 <= i < |lines| ==> NewLine !in lines[i].text
    ensures lines[0].dy == 0.0
    ensures forall i :: 0 < i < |lines| ==> lines[i].dy - lines[i - 1].dy == size * LineHeightFactor
    ensures Join(Texts(lines), NewLine) == text
  {
    var parts := Split(text, NewLine);
    SplitCount(text, NewLine);
    var lines := Stack(parts, size * LineHeightFactor);
    TextsOfStack(parts, size * LineHeightFactor);
    StackSpacing(parts, size * LineHeightFactor);
    lines
  }

  /** The pieces stacked one line height apart, the first at offset 0. */
  function Stack(parts: seq<string>, height: real): seq<Line> {
    seq(|parts|, i requires 0 <= i < |parts| => Line(parts[i], i as real * height))
  }

  /** Stacking keeps the pieces' texts, in order. */
  lemma TextsOfStack(parts: seq<string>, height: real)
    ensures Texts(Stack(parts, height)) == parts
  {
    var ts := Texts(Stack(parts, height));
    assert |ts| == |parts|;
    forall i | 0 <= i < |parts| ensures ts[i] == parts[i] {
    }
  }

  /** Consecutive stacked lines sit exactly one line height apart. */
  lemma StackSpacing(parts: seq<string>, height: real)
    ensures forall i :: 0 < i < |parts| ==>
              Stack(parts, height)[i].dy - Stack(parts, height)[i - 1].dy == height
  {
    var lines := Stack(parts, height);
    forall i | 0 < i < |parts| ensures lines[i].dy - lines[i - 1].dy == height {
      assert i as real * height - (i - 1) as real * height == (i as real - (i - 1) as real) * height;
    }
  }

  /** The texts of a sequence of lines. */
  function Texts(lines: seq<Line>): seq<string> {
    seq(|lines|, i requires 0 <= i < |lines| => lines[i].text)
  }

  /** Line i sits i line heights below the anchor. */
  lemma {:induction false} LineOffset(text: string, size: real, i: nat)
    requires i < |LineLayout(text, size)|
    ensures LineLayout(text, size)[i].dy == i as real * size * LineHeightFactor
  {
    var lines := LineLayout(text, size);
    if i > 0 {
      LineOffset(text, size, i - 1);
    }
  }

}

=== FILE: options.dfy ===
/** The editor's nullable values: `number | null` for the selection and the
    possibly missing result of a search in the overlay list. */
module Options {

  datatype Option<+T> = None | Some(value: T)

}

=== FILE: overlays.dfy ===
/** The text overlay record and the list operations the editor performs on
    its ordered overlay list, always addressing an overlay by its id. */
module Overlays {
  import opened Options
  import opened Geometry

  /** Font size and rotation given to a freshly placed overlay. */
  const DefaultSize: real := 80.0
  const DefaultRotation: real := 0.0

  /** One piece of text on the image: position in image-pixel space, font
      size in pixels and rotation in degrees.  The text may hold newlines. */
  datatype Overlay = Overlay(id: int, x: real, y: real, text: string, size: real, rotation: real)
  {
    function Pos(): Point {
      Point(x, y)
    }
  }

  /** The field rewrites the handlers apply to a single overlay. */
  datatype Edit =
    | Move(to: Point)
    | Resize(newSize: real)
    | Rotate(angle: real)
    | Retext(newText: string)

  /** Rewrites the one field an edit names and keeps every other field. */
  function ApplyEdit(o: Overlay, e: Edit): (r: Overlay)
    ensures r.id == o.id
    ensures r.Pos() == (if e.Move? then e.to else o.Pos())
    ensures r.size == (if e.Resize? then e.newSize else o.size)
    ensures r.rotation == (if e.Rotate? then e.angle else o.rotation)
    ensures r.text == (if e.Retext? then e.newText else o.text)
  {
    match e
    case Move(to) => o.(x := to.x, y := to.y)
    case Resize(v) => o.(size := v)
    case Rotate(v) => o.(rotation := v)
    case Retext(t) => o.(text := t)
  }

  /** The ids present in a list. */
  function Ids(ovs: seq<Overlay>): set<int> {
    set i | 0 <= i < |ovs| :: ovs[i].id
  }

  /** No overlay of the list carries the id. */
  predicate Absent(ovs: seq<Overlay>, id: int) {
    forall i :: 0 <= i < |ovs| ==> ovs[i].id != id
  }

  /** No id occurs twice in the list. */
  predicate IdsDistinct(ovs: seq<Overlay>) {
    forall i, j :: 0 <= i < |ovs| && 0 <= j < |ovs| && i != j ==> ovs[i].id != ovs[j].id
  }

  /** Ids strictly increase along the list: the list is in creation order
      and no id occurs twice. */
  predicate IdsAscending(ovs: seq<Overlay>) {
    forall i, j :: 0 <= i < j < |ovs| ==> ovs[i].id < ovs[j].id
  }

  /** The position of the first overlay with the given id, as JavaScript's
      `Array.prototype.find` does: the first match; None when no overlay
      carries the id. */
  function FindIndex(ovs: seq<Overlay>, id: int): (r: Option<nat>)
    ensures r.Some? ==> r.value < |ovs| && ovs[r.value].id == id
    ensures r.Some? ==> forall j :: 0 <= j < r.value ==> ovs[j].id != id
    ensures r.None? ==> forall j :: 0 <= j < |ovs| ==> ovs[j].id != id
  {
    if |ovs| == 0 then None
    else if ovs[0].id == id then Some(0)
    else match FindIndex(ovs[1..], id)
      case None => None
      case Some(k) => Some(k + 1)
  }

  /** Applies an edit to every overlay carrying the id, leaving the others
      as they are: the shape of every `map` over the list in the editor. */
  function EditById(ovs: seq<Overlay>, id: int, e: Edit): (r: seq<Overlay>)
    ensures |r| == |ovs|
    ensures forall i :: 0 <= i < |ovs| && ovs[i].id == id ==> r[i] == ApplyEdit(ovs[i], e)
    ensures forall i :: 0 <= i < |ovs| && ovs[i].id != id ==> r[i] == ovs[i]
  {
    if |ovs| == 0 then []
    else [if ovs[0].id == id then ApplyEdit(ovs[0], e) else ovs[0]] + EditById(ovs[1..], id, e)
  }

  /** An edit keeps the id of every position, hence the id set and the
      creation order. */
  lemma EditByIdKeepsIds(ovs: seq<Overlay>, id: int, e: Edit)
    ensures Ids(EditById(ovs, id, e)) == Ids(ovs)
    ensures IdsAscending(ovs) ==> IdsAscending(EditById(ovs, id, e))
  {
    var r := EditById(ovs, id, e);
    assert forall i :: 0 <= i < |ovs| ==> r[i].id == ovs[i].id;
    forall x | x in Ids(ovs) ensures x in Ids(r) {
      var i :| 0 <= i < |ovs| && ovs[i].id == x;
      assert r[i].id == x;
    }
  }

  /** Moves the overlay(s) with the given id to (x, y); nothing else changes. */
  function UpdateTextPosition(ovs: seq<Overlay>, id: int, x: real, y: real): (r: seq<Overlay>)
    ensures |r| == |ovs|
    ensures forall i :: 0 <= i < |ovs| ==> r[i].id == ovs[i].id
    ensures forall i :: 0 <= i < |ovs| && ovs[i].id == id ==>
              r[i] == ovs[i].(x := x, y := y)
    ensures forall i :: 0 <= i < |ovs| && ovs[i].id != id ==> r[i] == ovs[i]
    ensures Absent(ovs, id) ==> r == ovs
  {
    EditById(ovs, id, Move(Point(x, y)))
  }

  /** The list with every overlay of the given id filtered out. */
  function RemoveById(ovs: seq<Overlay>, id: int): (r: seq<Overlay>)
    ensures forall o :: o in r <==> o in ovs && o.id != id
    ensures |r| <= |ovs|
  {
    if |ovs| == 0 then []
    else
      var rest := RemoveById(ovs[1..], id);
      if ovs[0].id == id then rest else [ovs[0]] + rest
  }

  /** Filtering removes exactly the id from the id set. */
  lemma {:induction false} RemoveByIdIds(ovs: seq<Overlay>, id: int)
    ensures Ids(RemoveById(ovs, id)) == Ids(ovs) - {id}
  {
    if |ovs| > 0 {
      var rest := RemoveById(ovs[1..], id);
      RemoveByIdIds(ovs[1..], id);
      IdsCons(ovs);
      if ovs[0].id != id {
        IdsCons([ovs[0]] + rest);
        assert ([ovs[0]] + rest)[1..] == rest;
      }
    }
  }

  /** The id set of a non-empty list splits into its head's id and the rest. */
  lemma IdsCons(ovs: seq<Overlay>)
    requires |ovs| > 0
    ensures Ids(ovs) == {ovs[0].id} + Ids(ovs[1..])
  {
    var tl := ovs[1..];
    forall x | x in Ids(ovs) ensures x in {ovs[0].id} + Ids(tl) {
      var i :| 0 <= i < |ovs| && ovs[i].id == x;
      if i > 0 { assert tl[i - 1].id == x; }
    }
    forall x | x in Ids(tl) ensures x in Ids(ovs) {
      var i :| 0 <= i < |tl| && tl[i].id == x;
      assert ovs[i + 1].id == x;
    }
  }

  /** Filtering distributes over concatenation, so the surviving overlays
      keep their relative order. */
  lemma {:induction false} RemoveDistributes(a: seq<Overlay>, b: seq<Overlay>, id: int)
    ensures RemoveById(a + b, id) == RemoveById(a, id) + RemoveById(b, id)
  {
    if |a| == 0 {
      assert a + b == b;
    } else {
      assert (a + b)[1..] == a[1..] + b;
      RemoveDistributes(a[1..], b, id);
    }
  }

  /** Filtering an id that is absent returns the list itself. */
  lemma {:induction false} RemoveAbsentIsNoop(ovs: seq<Overlay>, id: int)
    requires Absent(ovs, id)
    ensures RemoveById(ovs, id) == ovs
  {
    if |ovs| > 0 {
      RemoveAbsentIsNoop(ovs[1..], id);
      assert ovs == [ovs[0]] + ovs[1..];
    }
  }

  /** With distinct ids, the id at position k occurs nowhere before or
      after position k. */
  lemma DistinctIdOnlyAt(ovs: seq<Overlay>, k: nat)
    requires IdsDistinct(ovs)
    requires k < |ovs|
    ensures Absent(ovs[..k], ovs[k].id)
    ensures Absent(ovs[k + 1..], ovs[k].id)
  {
    var tail := ovs[k + 1..];
    forall i | 0 <= i < |tail| ensures tail[i].id != ovs[k].id {
      assert tail[i] == ovs[k + 1 + i];
    }
  }

  /** Filtering an id carried by one overlay only cuts out that overlay. */
  lemma RemoveSingle(pre: seq<Overlay>, o: Overlay, post: seq<Overlay>)
    requires Absent(pre, o.id) && Absent(post, o.id)
    ensures RemoveById(pre + [o] + post, o.id) == pre + post
  {
    RemoveDistributes(pre + [o], post, o.id);
    RemoveDistributes(pre, [o], o.id);
    RemoveAbsentIsNoop(pre, o.id);
    RemoveAbsentIsNoop(post, o.id);
    assert RemoveById([o], o.id) == [] by {
      assert [o][1..] == [];
    }
    assert pre + [] == pre;
  }

  /** In a list without repeated ids, removing the id found at position k
      cuts out exactly that one overlay. */
  lemma RemoveUniqueIsSplice(ovs: seq<Overlay>, k: nat)
    requires IdsDistinct(ovs)
    requires k < |ovs|
    ensures RemoveById(ovs, ovs[k].id) == ovs[..k] + ovs[k + 1..]
  {
    DistinctIdOnlyAt(ovs, k);
    assert ovs == ovs[..k] + [ovs[k]] + ovs[k + 1..];
    RemoveSingle(ovs[..k], ovs[k], ovs[k + 1..]);
  }

  /** Filtering keeps ids ascending: the result is a subsequence. */
  lemma {:induction false} RemoveKeepsAscending(ovs: seq<Overlay>, id: int)
    requires IdsAscending(ovs)
    ensures IdsAscending(RemoveById(ovs, id))
  {
    if |ovs| > 0 {
      var rest := RemoveById(ovs[1..], id);
      RemoveKeepsAscending(ovs[1..], id);
      if ovs[0].id != id {
        var r := [ovs[0]] + rest;
        forall j | 0 < j < |r| ensures ovs[0].id < r[j].id {
          assert r[j] in rest;
          assert r[j] in ovs[1..];
          var m :| 0 <= m < |ovs[1..]| && ovs[1..][m] == r[j];
          assert ovs[m + 1] == r[j];
        }
      }
    }
  }

  /** Appending an overlay whose id exceeds every id present keeps ids
      ascending. */
  lemma AppendKeepsAscending(ovs: seq<Overlay>, o: Overlay)
    requires IdsAscending(ovs)
    requires forall i :: 0 <= i < |ovs| ==> ovs[i].id < o.id
    ensures IdsAscending(ovs + [o])
  {
  }

  /** Ascending ids are pairwise distinct. */
  lemma AscendingIdsAreDistinct(ovs: seq<Overlay>)
    requires IdsAscending(ovs)
    ensures IdsDistinct(ovs)
  {
  }

}

=== FILE: session.dfy ===
/** The editor as a whole: the events the rendered page can deliver, the
    transition each one triggers, runs of events, and the invariants every
    reachable state keeps. */
module Session {
  import opened Options
  import opened Geometry
  import opened Overlays
  import opened MemeEditor
  import Behaviour

  /** The user actions the page wires to handlers.  Mouse and touch variants
      of the same gesture share one event. */
  datatype Event =
    | CanvasClicked(canvas: Option<ShownCanvas>, client: Point)
    | DeletePressed(id: int)
    | HandleGrabbed(canvas: Option<ShownCanvas>, client: Point, id: int)
    | PointerMoved(canvas: Option<ShownCanvas>, client: Point)
    | PointerReleased
    | SizeSlid(size: real)
    | RotationSlid(angle: real)
    | TextTyped(typed: string)
    | HandleClicked(index: nat)
    | AddModeToggled(on: bool)
    | PreviewToggled(on: bool)

  /** Whether the page can deliver the event in this state.  Handles are
      rendered once per overlay and only outside preview; the delete button
      only on the selected overlay's handle. */
  function Enabled(s: State, e: Event): (b: bool)
    ensures b && (e.DeletePressed? || e.HandleGrabbed?) ==>
              !s.preview && FindIndex(s.overlays, e.id).Some?
    ensures b && e.DeletePressed? ==> s.selected == Some(e.id)
    ensures b && e.HandleClicked? ==> !s.preview && e.index < |s.overlays|
    ensures !(e.DeletePressed? || e.HandleGrabbed? || e.HandleClicked?) ==> b
    ensures e.HandleGrabbed? && !s.preview && e.id in Ids(s.overlays) ==> b
    ensures e.HandleClicked? && !s.preview && e.index < |s.overlays| ==> b
    ensures e.DeletePressed? && !s.preview && s.selected == Some(e.id) && e.id in Ids(s.overlays) ==> b
  {
    match e
    case DeletePressed(id) => !s.preview && s.selected == Some(id) && id in Ids(s.overlays)
    case HandleGrabbed(_, _, id) => !s.preview && id in Ids(s.overlays)
    case HandleClicked(k) => !s.preview && k < |s.overlays|
    case _ => true
  }

  /** The transition an enabled event triggers. */
  function Apply(s: State, e: Event): (r: State)
    requires Enabled(s, e)
    ensures !e.CanvasClicked? ==> r.nextId == s.nextId
    ensures !(e.HandleGrabbed? || e.PointerReleased?) ==> r.dragging == s.dragging
    ensures r.addMode == (if e.AddModeToggled? then e.on else s.addMode)
    ensures r.preview == (if e.PreviewToggled? then e.on else s.preview)
    ensures (e.SizeSlid? || e.RotationSlid?) && s.selected.None? ==> r == s
    ensures e.TextTyped? ==> r.text == e.typed && r.selected == s.selected
    ensures e.HandleClicked? ==> r.selected == Some(s.overlays[e.index].id) && r.text == s.overlays[e.index].text
  {
    match e
    case CanvasClicked(c, p) => CanvasClick(s, c, p)
    case DeletePressed(id) => RemoveText(s, id)
    case HandleGrabbed(c, p, id) => DragStart(s, c, p, id)
    case PointerMoved(c, p) => DragMove(s, c, p)
    case PointerReleased => DragEnd(s)
    case SizeSlid(v) => TextSizeChange(s, v)
    case RotationSlid(v) => TextRotationChange(s, v)
    case TextTyped(t) => TextEdit(s, t)
    case HandleClicked(k) => HandleClick(s, k)
    case AddModeToggled(on) => s.(addMode := on)
    case PreviewToggled(on) => s.(preview := on)
  }

  /** Feeds a sequence of events to the editor; None when some event could
      not have been delivered in the state reached before it. */
  function Run(s: State, es: seq<Event>): Option<State>
    decreases |es|
  {
    if |es| == 0 then Some(s)
    else if Enabled(s, es[0]) then Run(Apply(s, es[0]), es[1..])
    else None
  }

  /** The editor invariant: ids lie in [0, nextId) and strictly increase
      along the list (so they are unique and in creation order), and a
      selection names an overlay that is present. */
  predicate Inv(s: State) {
    && 0 <= s.nextId
    && IdsAscending(s.overlays)
    && (forall i :: 0 <= i < |s.overlays| ==> 0 <= s.overlays[i].id < s.nextId)
    && (s.selected.Some? ==> s.selected.value in Ids(s.overlays))
  }

  /** A canvas click appends exactly when the canvas exists, add mode is on
      and text is pending, and leaves the list alone otherwise; the delete
      button drops the id and clears the selection. */
  lemma CanvasAndDeleteEvents(s: State, e: Event)
    requires e.CanvasClicked? || (e.DeletePressed? && Enabled(s, e))
    ensures var r := Apply(s, e);
            e.CanvasClicked? && e.canvas.Some? && s.addMode && s.text != "" ==>
              |r.overlays| == |s.overlays| + 1 && r.nextId == s.nextId + 1 && r.selected == Some(s.nextId)
    ensures var r := Apply(s, e);
            e.CanvasClicked? && !(e.canvas.Some? && s.addMode && s.text != "") ==> r.overlays == s.overlays
    ensures var r := Apply(s, e);
            e.DeletePressed? ==> Ids(r.overlays) == Ids(s.overlays) - {e.id} && r.selected.None?
  {
  }

  /** Grabbing a handle starts a drag of that overlay without moving it and
      records the offset from the pointer to the overlay's anchor; a move
      while dragging puts the selected overlay at the pointer plus that
      offset and does nothing unless dragging; a release stops the drag and
      moves nothing. */
  lemma PointerEvents(s: State, e: Event)
    requires (e.HandleGrabbed? && Enabled(s, e)) || e.PointerMoved? || e.PointerReleased?
    ensures var r := Apply(s, e);
            e.HandleGrabbed? ==> r.dragging && r.selected == Some(e.id) && r.overlays == s.overlays
    ensures var r := Apply(s, e);
            e.PointerMoved? ==> |r.overlays| == |s.overlays| && r.selected == s.selected
    ensures var r := Apply(s, e);
            e.HandleGrabbed? && e.canvas.Some? && FindIndex(s.overlays, e.id).Some? ==>
              r.dragOffset.Plus(ToImage(e.canvas.value, e.client)) == s.overlays[FindIndex(s.overlays, e.id).value].Pos()
    ensures e.PointerMoved? && !s.dragging ==> Apply(s, e) == s
    ensures var r := Apply(s, e);
            e.PointerMoved? && s.dragging && s.selected.Some? && e.canvas.Some? ==>
              var target := ToImage(e.canvas.value, e.client).Plus(s.dragOffset);
              forall i :: 0 <= i < |s.overlays| ==>
                r.overlays[i] == if s.overlays[i].id == s.selected.value
                                 then s.overlays[i].(x := target.x, y := target.y)
                                 else s.overlays[i]
    ensures var r := Apply(s, e);
            e.PointerReleased? ==> !r.dragging && r.overlays == s.overlays && r.selected == s.selected
  {
  }

  /** The two sliders reach the selected overlay's size and rotation
      respectively, and nothing else of the list. */
  lemma SliderEvents(s: State, e: Event)
    requires e.SizeSlid? || e.RotationSlid?
    ensures var r := Apply(s, e);
            e.SizeSlid? && s.selected.Some? ==>
              |r.overlays| == |s.overlays| &&
              forall i :: 0 <= i < |s.overlays| ==>
                r.overlays[i] == if s.overlays[i].id == s.selected.value
                                 then s.overlays[i].(size := e.size)
                                 else s.overlays[i]
    ensures var r := Apply(s, e);
            e.RotationSlid? && s.selected.Some? ==>
              |r.overlays| == |s.overlays| &&
              forall i :: 0 <= i < |s.overlays| ==>
                r.overlays[i] == if s.overlays[i].id == s.selected.value
                                 then s.overlays[i].(rotation := e.angle)
                                 else s.overlays[i]
  {
  }

  /** Outside preview every overlay of a valid state has a handle that can
      be grabbed and clicked, and the selected one a delete button. */
  lemma HandlesDeliverable(s: State, c: Option<ShownCanvas>, p: Point, k: nat)
    requires Inv(s) && !s.preview && k < |s.overlays|
    ensures Enabled(s, HandleGrabbed(c, p, s.overlays[k].id))
    ensures Enabled(s, HandleClicked(k))
    ensures s.selected.Some? ==> Enabled(s, DeletePressed(s.selected.value))
  {
    assert s.overlays[k].id in Ids(s.overlays);
  }

  /** The page opens in a state that satisfies the invariant. */
  lemma InitSatisfiesInv()
    ensures Inv(Init())
  {
  }

  /** A step that keeps the counter, the selection and the id at every
      position of the list keeps the invariant. */
  lemma SameIdsKeepInv(s: State, r: State)
    requires Inv(s)
    requires r.nextId == s.nextId && r.selected == s.selected
    requires |r.overlays| == |s.overlays|
    requires forall i :: 0 <= i < |s.overlays| ==> r.overlays[i].id == s.overlays[i].id
    ensures Inv(r)
  {
    if r.selected.Some? {
      var i :| 0 <= i < |s.overlays| && s.overlays[i].id == s.selected.value;
      assert r.overlays[i].id == r.selected.value;
    }
  }

  /** A canvas click that adds an overlay keeps the invariant. */
  lemma AddKeepsInv(s: State, c: ShownCanvas, p: Point)
    requires Inv(s)
    requires s.text != "" && s.addMode
    ensures Inv(CanvasClick(s, Some(c), p))
  {
    var r := CanvasClick(s, Some(c), p);
    var n := |s.overlays|;
    assert r.overlays == s.overlays + [r.overlays[n]];
    AppendKeepsAscending(s.overlays, r.overlays[n]);
    assert r.overlays[n].id == s.nextId;
    assert s.nextId in Ids(r.overlays);
  }

  /** Deleting any id keeps the invariant. */
  lemma RemoveKeepsInv(s: State, id: int)
    requires Inv(s)
    ensures Inv(RemoveText(s, id))
  {
    var r := RemoveText(s, id);
    RemoveKeepsAscending(s.overlays, id);
    forall i | 0 <= i < |r.overlays| ensures 0 <= r.overlays[i].id < r.nextId {
      assert r.overlays[i] in s.overlays;
    }
  }

  /** Every enabled event preserves the invariant. */
  lemma ApplyPreservesInv(s: State, e: Event)
    requires Inv(s)
    requires Enabled(s, e)
    ensures Inv(Apply(s, e))
  {
    match e
    case CanvasClicked(c, p) =>
      if c.Some? && s.text != "" && s.addMode { AddKeepsInv(s, c.value, p); }
    case DeletePressed(id) => RemoveKeepsInv(s, id);
    case HandleGrabbed(c, p, id) =>
    case PointerMoved(c, p) => SameIdsKeepInv(s, Apply(s, e));
    case PointerReleased =>
    case SizeSlid(v) => SameIdsKeepInv(s, Apply(s, e));
    case RotationSlid(v) => SameIdsKeepInv(s, Apply(s, e));
    case TextTyped(t) => SameIdsKeepInv(s, Apply(s, e));
    case HandleClicked(k) =>
    case AddModeToggled(on) =>
    case PreviewToggled(on) =>
  }

  /** One step never lowers the id counter and never brings back an id
      below the counter that is not already present. */
  lemma ApplyKeepsIdsFresh(s: State, e: Event)
    requires Inv(s)
    requires Enabled(s, e)
    ensures Apply(s, e).nextId >= s.nextId
    ensures Ids(Apply(s, e).overlays) <= Ids(s.overlays) + {s.nextId}
  {
    var r := Apply(s, e);
    match e
    case CanvasClicked(c, p) =>
      if c.Some? && s.text != "" && s.addMode {
        forall x | x in Ids(r.overlays) ensures x in Ids(s.overlays) + {s.nextId} {
          var i :| 0 <= i < |r.overlays| && r.overlays[i].id == x;
          if i < |s.overlays| {
            assert r.overlays[i] == r.overlays[..|s.overlays|][i];
          }
        }
      }
    case DeletePressed(id) =>
    case HandleGrabbed(c, p, id) =>
    case PointerMoved(c, p) =>
      if s.dragging && s.selected.Some? && c.Some? {
        EditByIdKeepsIds(s.overlays, s.selected.value, Move(ToImage(c.value, p).Plus(s.dragOffset)));
      }
    case PointerReleased =>
    case SizeSlid(v) =>
      if s.selected.Some? { EditByIdKeepsIds(s.overlays, s.selected.value, Resize(v)); }
    case RotationSlid(v) =>
      if s.selected.Some? { EditByIdKeepsIds(s.overlays, s.selected.value, Rotate(v)); }
    case TextTyped(t) =>
      if s.selected.Some? { EditByIdKeepsIds(s.overlays, s.selected.value, Retext(t)); }
    case HandleClicked(k) =>
    case AddModeToggled(on) =>
    case PreviewToggled(on) =>
  }

  /** Any run of deliverable events preserves the invariant. */
  lemma {:induction false} RunPreservesInv(s: State, es: seq<Event>)
    requires Inv(s)
    requires Run(s, es).Some?
    ensures Inv(Run(s, es).value)
    decreases |es|
  {
    if |es| > 0 {
      ApplyPreservesInv(s, es[0]);
      RunPreservesInv(Apply(s, es[0]), es[1..]);
    }
  }

  /** Ids are never reused: an id below the counter that is absent stays
      absent for the rest of any run, and the counter never decreases. */
  lemma {:induction false} RunNeverReusesIds(s: State, es: seq<Event>, id: int)
    requires Inv(s)
    requires Run(s, es).Some?
    requires id < s.nextId
    requires id !in Ids(s.overlays)
    ensures Run(s, es).value.nextId >= s.nextId
    ensures id !in Ids(Run(s, es).value.overlays)
    decreases |es|
  {
    if |es| > 0 {
      ApplyKeepsIdsFresh(s, es[0]);
      ApplyPreservesInv(s, es[0]);
      RunNeverReusesIds(Apply(s, es[0]), es[1..], id);
    }
  }

  /** In every state reachable from the opening state, overlay ids are
      pairwise distinct, below the counter and in creation order, and a
      selection names a present overlay. */
  lemma ReachableIdsDistinct(es: seq<Event>)
    requires Run(Init(), es).Some?
    ensures var t := Run(Init(), es).value;
            && IdsAscending(t.overlays)
            && (forall i, j :: 0 <= i < |t.overlays| && 0 <= j < |t.overlays| && i != j ==>
                  t.overlays[i].id != t.overlays[j].id)
            && (forall i :: 0 <= i < |t.overlays| ==> 0 <= t.overlays[i].id < t.nextId)
            && (t.selected.Some? ==> t.selected.value in Ids(t.overlays))
  {
    InitSatisfiesInv();
    RunPreservesInv(Init(), es);
    AscendingIdsAreDistinct(Run(Init(), es).value.overlays);
  }

  /** Running two event sequences back to back is running their
      concatenation. */
  lemma {:induction false} RunConcat(s: State, a: seq<Event>, b: seq<Event>)
    ensures Run(s, a + b) == if Run(s, a).Some? then Run(Run(s, a).value, b) else None
    decreases |a|
  {
    if |a| == 0 {
      assert a + b == b;
    } else {
      assert (a + b)[0] == a[0];
      assert (a + b)[1..] == a[1..] + b;
      if Enabled(s, a[0]) {
        RunConcat(Apply(s, a[0]), a[1..], b);
      }
    }
  }

  /** The events of typing each text into the field and then clicking the
      canvas at the matching point. */
  function TypeAndClick(ts: seq<string>, c: ShownCanvas, ps: seq<Point>): seq<Event>
    requires |ts| == |ps|
  {
    if |ts| == 0 then []
    else [TextTyped(ts[0]), CanvasClicked(Some(c), ps[0])] + TypeAndClick(ts[1..], c, ps[1..])
  }

  /** Grabbing a handle and moving the pointer, delivered as events from a
      valid state, shifts exactly the grabbed overlay by the pointer's
      displacement in image space. */
  lemma GrabThenMove(s: State, c: ShownCanvas, p: Point, q: Point, k: nat)
    requires Inv(s) && !s.preview && k < |s.overlays|
    ensures var o := s.overlays[k];
            var t := Run(s, [HandleGrabbed(Some(c), p, o.id), PointerMoved(Some(c), q)]);
            && t.Some?
            && |t.value.overlays| == |s.overlays|
            && t.value.overlays[k].Pos() == o.Pos().Plus(ToImage(c, q).Minus(ToImage(c, p)))
            && (forall j :: 0 <= j < |s.overlays| && j != k ==> t.value.overlays[j] == s.overlays[j])
  {
    var o := s.overlays[k];
    HandlesDeliverable(s, Some(c), p, k);
    RunPair(s, HandleGrabbed(Some(c), p, o.id), PointerMoved(Some(c), q));
    Behaviour.DragKeepsGrabOffset(s, c, p, q, k);
  }

  /** A run of two deliverable events applies both in turn. */
  lemma RunPair(s: State, e1: Event, e2: Event)
    requires Enabled(s, e1) && Enabled(Apply(s, e1), e2)
    ensures Run(s, [e1, e2]) == Some(Apply(Apply(s, e1), e2))
  {
    var es := [e1, e2];
    var s1 := Apply(s, e1);
    var s2 := Apply(s1, e2);
    assert es[1..] == [e2];
    assert es[1..][1..] == [];
    assert Run(s2, []) == Some(s2);
    assert Run(s1, es[1..]) == Run(s2, []);
    assert Run(s, es) == Run(s1, es[1..]);
  }

  /** Typing keeps the counter, the mode and every position's id. */
  lemma TextEditKeepsIds(s: State, text: string)
    ensures var r := TextEdit(s, text);
            && r.nextId == s.nextId && r.addMode == s.addMode && r.selected == s.selected
            && |r.overlays| == |s.overlays|
            && forall i :: 0 <= i < |s.overlays| ==> r.overlays[i].id == s.overlays[i].id
  {
  }

  /** An add keeps every earlier position's id and puts the old counter at
      the new last position. */
  lemma AddIds(s: State, c: ShownCanvas, p: Point)
    requires s.text != "" && s.addMode
    ensures var r := CanvasClick(s, Some(c), p);
            && r.addMode && r.text == "" && r.selected == Some(s.nextId)
            && r.nextId == s.nextId + 1
            && |r.overlays| == |s.overlays| + 1
            && r.overlays[|s.overlays|].id == s.nextId
            && forall i :: 0 <= i < |s.overlays| ==> r.overlays[i].id == s.overlays[i].id
  {
    var r := CanvasClick(s, Some(c), p);
    forall i | 0 <= i < |s.overlays| ensures r.overlays[i].id == s.overlays[i].id {
      assert r.overlays[i] == r.overlays[..|s.overlays|][i];
    }
  }

  /** t has the overlays of s at the same positions, followed by n new ones
      numbered from s's counter on, and its counter is n further on. */
  predicate Extends(s: State, t: State, n: nat) {
    && |t.overlays| == |s.overlays| + n
    && t.nextId == s.nextId + n
    && (forall i :: 0 <= i < |s.overlays| ==> t.overlays[i].id == s.overlays[i].id)
    && (forall i :: |s.overlays| <= i < |t.overlays| ==> t.overlays[i].id == s.nextId + (i - |s.overlays|))
  }

  /** One appended overlay followed by n more is n + 1 consecutive appends. */
  lemma ExtendsTrans(s: State, m: State, t: State, n: nat)
    requires Extends(s, m, 1) && Extends(m, t, n)
    ensures Extends(s, t, n + 1)
  {
    assert t.overlays[|s.overlays|].id == m.overlays[|s.overlays|].id;
  }

  /** One round of typing a non-empty text and clicking the canvas in add
      mode appends one overlay with the next id, selects it and clears the
      text field. */
  lemma TypeThenClick(s: State, text: string, c: ShownCanvas, p: Point)
    requires s.addMode
    requires text != ""
    ensures var r := CanvasClick(TextEdit(s, text), Some(c), p);
            && Extends(s, r, 1)
            && r.addMode && r.selected == Some(s.nextId) && r.text == ""
  {
    var s1 := TextEdit(s, text);
    var r := CanvasClick(s1, Some(c), p);
    TextEditKeepsIds(s, text);
    AddIds(s1, c, p);
  }

  /** The state after the type-and-click rounds, one round at a time. */
  function Rounds(s: State, ts: seq<string>, c: ShownCanvas, ps: seq<Point>): State
    requires |ts| == |ps|
    decreases |ts|
  {
    if |ts| == 0 then s
    else Rounds(CanvasClick(TextEdit(s, ts[0]), Some(c), ps[0]), ts[1..], c, ps[1..])
  }

  /** Typing and canvas clicks can always be delivered, so the event run
      reaches the state the rounds compute. */
  lemma {:induction false} RunTypeAndClick(s: State, ts: seq<string>, c: ShownCanvas, ps: seq<Point>)
    requires |ts| == |ps|
    ensures Run(s, TypeAndClick(ts, c, ps)) == Some(Rounds(s, ts, c, ps))
    decreases |ts|
  {
    if |ts| > 0 {
      var pair := [TextTyped(ts[0]), CanvasClicked(Some(c), ps[0])];
      var m := CanvasClick(TextEdit(s, ts[0]), Some(c), ps[0]);
      RunPair(s, pair[0], pair[1]);
      assert TypeAndClick(ts, c, ps) == pair + TypeAndClick(ts[1..], c, ps[1..]);
      RunConcat(s, pair, TypeAndClick(ts[1..], c, ps[1..]));
      RunTypeAndClick(m, ts[1..], c, ps[1..]);
    }
  }

  /** The rounds append one overlay each, numbered from the counter on. */
  lemma {:induction false} RoundsAppend(s: State, ts: seq<string>, c: ShownCanvas, ps: seq<Point>)
    requires s.addMode
    requires |ts| == |ps|
    requires forall k :: 0 <= k < |ts| ==> ts[k] != ""
    ensures Extends(s, Rounds(s, ts, c, ps), |ts|)
    decreases |ts|
  {
    if |ts| > 0 {
      var m := CanvasClick(TextEdit(s, ts[0]), Some(c), ps[0]);
      TypeThenClick(s, ts[0], c, ps[0]);
      NonEmptyTail(ts);
      RoundsAppend(m, ts[1..], c, ps[1..]);
      ExtendsTrans(s, m, Rounds(m, ts[1..], c, ps[1..]), |ts| - 1);
    }
  }

  lemma NonEmptyTail(ts: seq<string>)
    requires |ts| > 0
    requires forall k :: 0 <= k < |ts| ==> ts[k] != ""
    ensures forall k :: 0 <= k < |ts[1..]| ==> ts[1..][k] != ""
  {
    forall k | 0 <= k < |ts[1..]| ensures ts[1..][k] != "" {
      assert ts[1..][k] == ts[k + 1];
    }
  }

  /** N rounds of typing a non-empty text and clicking the canvas in add
      mode add exactly N overlays at the end of the list, with the ids
      nextId, nextId + 1, ... in order; the ids already present stay where
      they were. */
  lemma TypeAndClickAppends(s: State, ts: seq<string>, c: ShownCanvas, ps: seq<Point>)
    requires s.addMode
    requires |ts| == |ps|
    requires forall k :: 0 <= k < |ts| ==> ts[k] != ""
    ensures Run(s, TypeAndClick(ts, c, ps)).Some?
    ensures Extends(s, Run(s, TypeAndClick(ts, c, ps)).value, |ts|)
  {
    RunTypeAndClick(s, ts, c, ps);
    RoundsAppend(s, ts, c, ps);
  }

}
